=== FILE: README.md ===
# Member-ID codec

A Dafny model of the member-ID codec of the member-ID service. Member IDs
are 16-character identifiers of the form `YY-CC-BY-BM-XXXX`:

- the last two digits of the enrolment year;
- a two-letter country code;
- the last two digits of the birth year;
- the two-digit birth month;
- four characters taken from a random UUID.

The model covers these operations:

- `member_id_clean` (trim and upper-case), modelled as `MemberId.Clean`;
- `member_id_generate`, modelled as `MemberId.Generate`;
- `is_member_id_valid`, modelled as `MemberId.IsMemberIdValid`. It runs eight ordered checks. `MemberId.FirstRejection` returns the first one that fails as a `Rejection` value, which carries the raw offending segment, and `MemberId.Reason` turns that value into the reason string the program returns;
- the request validators `is_valid_nonempty_str` and `is_valid_country_code`, modelled in module `Validators`.

The program's Python string primitives are written out in module `Text`:

- `strip` and `upper`;
- `split('-')` and `'-'.join`;
- `str(int)`, `s[-2:]` and `zfill`.

The modules are:

- `Results`: `Option` and `Result`;
- `Text`: the string primitives and their algebra: split/join inverses, strip uniqueness, and the decimal facts;
- `MemberId`: the three codec operations;
- `MemberIdProps`: properties relating several calls, and the repository's own test cases;
- `Validators`: the request validators.

What the running program reads from its environment is passed in as a
parameter:

- the country table `country_codes_and_names` becomes `table: set<string>`, the set of its keys;
- `date.today().year` becomes `currentYear`;
- the random group `str(uuid.uuid4()).split('-')[1]` becomes `chunk`, which must be four lower-case hex characters.

Facts about the program that the model keeps as they are:

- **Validation does not clean.** `is_member_id_valid` works on the string exactly as given (member_id_utils.py:58). The validate route's code would clean first and then validate (routes.py:120-126), but as written it never gets there. Line 118 calls `is_valid_nonempty_str(..., raise_if_fail=False)`, and that function takes only `should_raise` (validators.py:7), so Python raises `TypeError` at line 118. The registration route makes the same call (routes.py:62-68). `MemberIdProps.CleanIdempotent` states what a caller that cleans before validating gets.
- **Generation checks the raw country code.** `member_id_generate` tests the code as given against the table (member_id_utils.py:32), and upper-cases it only when building the ID (line 47). So a lower-case code is rejected unless the table lists it in lower case.
- **Two reasons are fixed strings.** The length reason and the year reason name no segment (member_id_utils.py:62, 66). The six later reasons end with the raw segment that failed.
- **The country code is not checked for letters.** Validation checks only that the upper-cased code is in the table and is not `US` (member_id_utils.py:68-72). The request validator checks only the length and table membership (validators.py:29-32).
- **The `US` asymmetry.** Generation accepts `US` whenever the table lists it (member_id_utils.py:32), and validation always rejects it (line 71). `MemberIdProps.GeneratedUsRejected` states this.
- **Short years.** A year from -9 to 9 gives a year segment of the wrong shape (`5` or `-5`). With a table of two-upper-case-letter codes, validation refuses every such ID with the length reason (`MemberIdProps.ShortYearRejected`). With a longer code the length can come out right (year 5 and code `ABC` give the 16-character `5-ABC-61-01-2F0D`), and the year check rejects the ID instead.

Two Python details are modelled exactly:

- A pattern ending in `$` also matches just before one final newline, so `re.match(r'^\d{2}$', "12\n")` succeeds. `MatchesTwoDigits` and `MatchesFourAlnum` accept that form. `MemberIdProps.AcceptedSegmentLengths` shows it cannot happen with a table of two-upper-case-letter codes.
- For negative years, `str(year)[-2:]` keeps the minus sign of a one-digit year.

## Model

| member | source | states |
|---|---|---|
| MemberId.Clean | api/src/member_id/member_id_utils.py:7-11 | the cleaned ID has no surrounding whitespace and no lower-case letter, and is never longer than the input |
| MemberIdProps.CleanIdempotent | api/src/member_id/member_id_utils.py:7-11 | cleaning twice equals cleaning once, so validating a cleaned ID gives the same verdict and reason however often it was cleaned |
| MemberIdProps.CleanOfPadded | api/src/member_id/member_id_utils.py:11 | for any whitespace padding around a trimmed middle, cleaning returns exactly the upper-cased middle |
| MemberIdProps.CleanExamples | api/src/member_id/__tests__/member_id_utils.py:6-9 | the two inputs of the cleaning test, `' 23-MX-61-01-2F0D '` and `'23-mX-61-01-2f0d'`, both clean to `23-MX-61-01-2F0D` |
| Text.Strip | api/src/member_id/member_id_utils.py:11 | the stripped string starts and ends with a non-whitespace character, and is not longer than the input |
| Text.Upper | api/src/member_id/member_id_utils.py:11 | upper-casing keeps the length. Each lower-case ASCII letter becomes its upper-case letter, and every other character is unchanged |
| Text.StripUnique | api/src/member_id/member_id_utils.py:11 | stripping whitespace padding from a trimmed middle yields that middle, so strip removes exactly the surrounding whitespace |
| Text.LeadingSpacesAreSpace | api/src/member_id/member_id_utils.py:11 | every character strip removes from the front is whitespace |
| Text.TrailingSpacesAreSpace | api/src/member_id/member_id_utils.py:11 | every character strip removes from the back is whitespace |
| Text.Split | api/src/member_id/member_id_utils.py:58 | a split has at least one piece, and no piece contains the separator |
| Text.JoinShape | api/src/member_id/member_id_utils.py:47 | a join starts with the first piece, has the separator right after it, and is as long as the pieces plus one separator per gap |
| Text.SplitJoin | api/src/member_id/member_id_utils.py:47 | splitting a join of separator-free pieces on the separator gives back the pieces |
| Text.JoinSplit | api/src/member_id/member_id_utils.py:58 | joining the pieces of a split with the separator gives back the original string |
| Text.UpperJoin | api/src/member_id/member_id_utils.py:47 | upper-casing a joined string equals joining the upper-cased pieces when the separator is not a letter |
| Text.IntToStringShape | api/src/member_id/member_id_utils.py:39 | `str(n)` is non-empty, starts with `-` exactly for negative `n`, and every other character is a digit |
| Text.IntToStringValue | api/src/member_id/member_id_utils.py:39 | reading `str(n)` back gives `n`: the digits of a non-negative `n` have value `n`, and the digits after the sign of a negative `n` have value `-n` |
| Text.NatToStringNoLeadingZero | api/src/member_id/member_id_utils.py:39 | `str(n)` of more than one digit does not start with `0` |
| Text.Last2Suffix | api/src/member_id/member_id_utils.py:39 | `s[-2:]` is a suffix of `s`, of length 2 or all of `s` when it is shorter |
| Text.ZFillShape | api/src/member_id/member_id_utils.py:41-42 | `zfill(w)` leaves a string of length at least `w` unchanged. A shorter string gets exactly the missing `0`s in front, placed after a leading sign if there is one |
| Text.LastTwoOfInt | api/src/member_id/member_id_utils.py:39 | for a year of at least two digits, `str(year)[-2:]` is the two-digit numeral of the absolute value modulo 100 |
| Text.PaddedLastTwo | api/src/member_id/member_id_utils.py:41 | the zero-filled last two characters of a birth year's numeral are the two-digit numeral of the year modulo 100 |
| Text.PaddedNumeral | api/src/member_id/member_id_utils.py:42 | a month below 100, zero-filled to width 2, is its two-digit numeral |
| MemberId.Generate | api/src/member_id/member_id_utils.py:22-47 | generation succeeds exactly when the year, the country code (as given) and the birth year all pass. The future year is reported first, then the unknown country, then the future birth year. A produced ID is already in clean form |
| MemberId.GenerateErrorMessages | api/src/member_id/member_id_utils.py:29-36 | a future year fails with `Year cannot be in the future`. Otherwise an unlisted code fails with `Not a valid country code`. Otherwise a future birth year fails with `Birth year cannot be in the future` |
| MemberIdProps.GenerateLength | api/src/member_id/member_id_utils.py:38-47 | a generated ID has one or two year characters, the country code's length and twelve more |
| MemberIdProps.GenerateSegments | api/src/member_id/member_id_utils.py:38-47 | for a year of 10 or more or -10 or less and a code without a dash, a generated ID splits into the two-digit year, the upper-cased code, the two-digit birth year, the two-digit month and the upper-cased chunk. With a two-character code it is 16 characters long |
| MemberIdProps.GenerateThenValidate | api/src/member_id/member_id_utils.py:22-90 | round trip: an ID generated with a year of at least two digits (10 or more, or -10 or less) and a two-character code without `-` whose upper-cased form the table lists, other than `US`, is accepted by validation |
| MemberIdProps.GeneratedUsRejected | api/src/member_id/member_id_utils.py:29-72 | with `US` in the table, a year of at least two digits (10 or more, or -10 or less) up to the current year, and a birth year not after the current year, generation succeeds and validation rejects the ID with `Disallowed country code. Got US` |
| MemberIdProps.NegativeDigitYearSplit | api/src/member_id/member_id_utils.py:38-58 | for a year from -9 to -1 and a code without `-`, the generated ID splits into six pieces, because the year's minus sign acts as a separator |
| MemberIdProps.ShortYearRejected | api/src/member_id/member_id_utils.py:38-62 | with a table of two-upper-case-letter codes, an ID generated with a year from -9 to 9 is rejected with the length reason. From 0 to 9 it is 15 characters long; from -9 to -1 it has six pieces |
| MemberIdProps.RoundTripIffNotUs | api/src/member_id/member_id_utils.py:22-90 | with a table of two-upper-case-letter codes, for every year, a generated ID is valid exactly when its code is not `US` and its year is 10 or more or -10 or less |
| MemberId.FirstRejection | api/src/member_id/member_id_utils.py:58-90 | none exactly when all eight checks pass. Otherwise the reported check fails and every earlier one passes, and the rejection carries the raw segment it is about. The two pattern checks are `MemberId.MatchesTwoDigits` for `^\d{2}$` and `MemberId.MatchesFourAlnum` for `^[a-zA-Z0-9]{4}$`, where `$` also accepts one final newline |
| MemberId.IsMemberIdValid | api/src/member_id/member_id_utils.py:53-90 | the verdict is true exactly when every check passes, and the reason is absent exactly then. A failed length check gives the length reason, and a failed year check gives the year reason. For any later failing check, the reason ends with the raw segment that failed |
| MemberId.TwoDigitsMatch | api/src/member_id/member_id_utils.py:64-80 | every string `^\d{2}$` accepts is the zero-padded numeral of a number below 100, optionally followed by one newline; with `MemberId.TwoDigitsNumeral` the pattern accepts exactly those strings |
| MemberId.TwoDigitValueIsNumeral | api/src/member_id/member_id_utils.py:78-83 | `int()` of an accepted two-digit segment, with or without its final newline, is the decimal value of its two digits, the same reading `Text.NumeralValue` gives any numeral |
| MemberId.TwoDigitsNumeral | api/src/member_id/member_id_utils.py:78-83 | the zero-padded numeral of every number below 100 matches, with or without a final newline, and `int()` reads the number back |
| MemberId.Reason | api/src/member_id/member_id_utils.py:61-87 | every reason is non-empty, and every reason about a segment ends with that raw segment |
| MemberIdProps.AcceptedSegmentLengths | api/src/member_id/member_id_utils.py:61-87 | with a table of two-upper-case-letter codes, the segments of an accepted ID are exactly 2, 2, 2, 2 and 4 characters long |
| MemberIdProps.WellFormedIffLayout | api/src/member_id/member_id_utils.py:58-87 | with a table of two-upper-case-letter codes, validation accepts exactly the strings `DD-CC-DD-DD-AAAA` with digits, a listed non-`US` code, a month 01..12 and four alphanumerics |
| MemberIdProps.ValidateExampleAccepted | api/src/member_id/__tests__/member_id_utils.py:34-35 | `23-MX-61-01-<chunk>` is valid for every alphanumeric chunk when `MX` is listed |
| MemberIdProps.ValidateExampleTooLong | api/src/member_id/__tests__/member_id_utils.py:38-39 | `23-MX-61-01-2F0D-12345` is rejected with the length reason |
| MemberIdProps.ValidateExampleCountry | api/src/member_id/__tests__/member_id_utils.py:42-45 | an unlisted code is rejected with a reason naming it. A listed `US` is rejected with the disallowed reason naming it |
| MemberIdProps.ValidateExampleBirthYear | api/src/member_id/__tests__/member_id_utils.py:48-49 | a two-character birth year that is not two digits is rejected with a reason naming it |
| MemberIdProps.ValidateExampleMonth | api/src/member_id/__tests__/member_id_utils.py:50-51 | a two-character month that is not two digits is rejected with a reason naming it |
| MemberIdProps.ValidateExampleChunk | api/src/member_id/__tests__/member_id_utils.py:54-55 | a four-character chunk with a non-alphanumeric character is rejected with a reason naming it |
| Validators.IsValidNonemptyStr | api/src/utils/validators.py:7-14 | returns true exactly for a present non-empty string. Otherwise it raises in the raising mode and returns false in the other |
| Validators.NonemptyModesAgree | api/src/utils/validators.py:9-14 | the raising mode raises exactly when the quiet mode returns false |
| Validators.CountryCodeError | api/src/utils/validators.py:28-32 | no error exactly for a listed two-character code. The not-found message overrides the length message |
| Validators.IsValidCountryCode | api/src/utils/validators.py:26-39 | returns true exactly for a two-character code the table lists as given. Otherwise it raises or returns false according to the mode |
| Validators.CountryModesAgree | api/src/utils/validators.py:34-39 | the raising mode raises exactly when the quiet mode returns false |
| Validators.AcceptedCodeGenerates | api/src/utils/validators.py:26-39 | a code the validator accepts lets generation succeed for every year from 10 up to the current year and every birth year up to the current year, giving a 16-character ID |

## Left out

- **Unicode text handling.** `strip`, `upper`, `\d` and `int()` are modelled for ASCII only:
  - `IsSpace` is space and code points 9–13 and 28–31;
  - `Upper` maps only `a`–`z`;
  - digits are only `0`–`9`.

  Python's Unicode whitespace and digits, and case mappings that change length (such as `ß` to `SS`), are not modelled.
- **The country table.** `geo.country_codes` is not part of this model. The table is a parameter, and some lemmas assume it holds only two-upper-case-letter codes (`CanonicalTable`).
- **The clock.** `date.today()` is read twice in `member_id_generate`. The model uses a single `currentYear` for both reads, so a call that straddles New Year is not modelled.
- **Randomness.** `uuid.uuid4()` is replaced by the `chunk` parameter. Collisions between generated IDs are not modelled.
- **Date parsing.** `birth_date` arrives as an already-valid `Date`. `utils.to_date`, `is_valid_date` and the date-parsing failure checked by the generation test are not part of this model.
- **Non-string arguments.** The model's arguments are strings by type. Other argument types are not modelled, and the Python functions do not treat them uniformly. For example, `member_id_generate` with a `None` code raises `ValueError('Not a valid country code')` (member_id_utils.py:32-33), and `is_valid_nonempty_str([1])` returns `True`.
- **Raised messages.** The validators' failing branches execute `raise <str>`, which raises a `TypeError` rather than the message. The model records only that the call raised (`Validators.Outcome.Raised`).
- **Everything outside the codec:**
  - HTTP routes and middleware;
  - the response cache and Redis;
  - the SQL models, sessions and migrations;
  - secret retrieval;
  - the web front end.
- MemberIdProps.GenerateThenValidate: requires a year of 10 or more or -10 or less. Years from -9 to 9 are covered by `ShortYearRejected` instead, and `RoundTripIffNotUs` combines both.
- Validators.AcceptedCodeGenerates: covers years from 10 up to the current year. Negative years also generate, but the lemma does not state that.
- MemberIdProps.ValidateExampleAccepted, ValidateExampleCountry, ValidateExampleBirthYear, ValidateExampleMonth and ValidateExampleChunk generalise the test strings:
  - the offending segment is a variable that satisfies the test's condition, not the literal `OP`, `aa`, `bb` or `!!!!`;
  - the table is an argument that lists `MX`.

=== FILE: member_id.dfy ===
/** The member-ID codec: cleaning, generation and validation of the
    16-character identifiers `YY-CC-BY-BM-XXXX` (enrolment year, country,
    birth year, birth month, random chunk).

    What the running program reads from its environment is passed in:
    the country table as the set of its codes, today's year as
    `currentYear`, and the random chunk `str(uuid.uuid4()).split('-')[1]`
    as `chunk`. */
module MemberId {
  import opened Results
  import opened Text

  /** The separator between segments. */
  const Dash: char := '-'

  /** The code that validation refuses even when the table lists it. */
  const Disallowed: string := "US"

  // ---------------------------------------------------------------------
  // member_id_clean
  // ---------------------------------------------------------------------

  /** Trims surrounding whitespace and upper-cases what is left. The result
      is in canonical form: no surrounding whitespace and no lower-case
      letter. */
  function Clean(s: string): (r: string)
    ensures Trimmed(r)
    ensures forall i :: 0 <= i < |r| ==> !IsLower(r[i])
    ensures |r| <= |s|
  {
    Upper(Strip(s))
  }

  // ---------------------------------------------------------------------
  // member_id_generate
  // ---------------------------------------------------------------------

  /** A calendar date as Python's `datetime.date` admits it. */
  datatype Date = Date(year: int, month: int, day: int)

  predicate IsLeapYear(y: int) {
    (y % 4 == 0 && y % 100 != 0) || y % 400 == 0
  }

  function DaysInMonth(y: int, m: int): int
    requires 1 <= m <= 12
  {
    if m == 2 then (if IsLeapYear(y) then 29 else 28)
    else if m == 4 || m == 6 || m == 9 || m == 11 then 30
    else 31
  }

  /** Years 1..9999 and a day that exists in its month. */
  predicate ValidDate(d: Date) {
    && 1 <= d.year <= 9999
    && 1 <= d.month <= 12
    && 1 <= d.day <= DaysInMonth(d.year, d.month)
  }

  /** The 4-character group of a UUID4 printed by `str()`: lower-case hex. */
  predicate IsUuidChunk(s: string) {
    |s| == 4 && forall i :: 0 <= i < 4 ==> IsLowerHex(s[i])
  }

  /** The three `ValueError`s of generation, in the order they are checked. */
  datatype GenerateError = FutureYear | UnknownCountry | FutureBirthYear {
    function Message(): string {
      match this
      case FutureYear => "Year cannot be in the future"
      case UnknownCountry => "Not a valid country code"
      case FutureBirthYear => "Birth year cannot be in the future"
    }
  }

  /** `str(year)[-2:]`. */
  function YearSegment(year: int): string {
    Last2(IntToString(year))
  }

  /** `str(str(birth_year)[-2:]).zfill(2)`. */
  function BirthYearSegment(birthYear: nat): string {
    ZFill(Last2(NatToString(birthYear)), 2)
  }

  /** `str(month).zfill(2)`. */
  function MonthSegment(month: nat): string {
    ZFill(NatToString(month), 2)
  }

  /** The five segments before joining and upper-casing. */
  function RawSegments(year: int, countryCode: string, birth: Date, chunk: string): seq<string>
    requires ValidDate(birth)
  {
    [YearSegment(year), countryCode, BirthYearSegment(birth.year), MonthSegment(birth.month), chunk]
  }

  /** Builds the member ID, or reports the first of the three checks that
      fails. A produced ID is already clean: `Clean` leaves it unchanged. */
  function Generate(year: int, countryCode: string, birth: Date, chunk: string,
                    table: set<string>, currentYear: int): (r: Result<string, GenerateError>)
    requires ValidDate(birth)
    requires IsUuidChunk(chunk)
    ensures r.Ok? <==> year <= currentYear && countryCode in table && birth.year <= currentYear
    ensures r == Err(FutureYear) <==> year > currentYear
    ensures r == Err(UnknownCountry) <==> year <= currentYear && countryCode !in table
    ensures r.Ok? ==> Clean(r.value) == r.value
  {
    if year > currentYear then Err(FutureYear)
    else if countryCode !in table then Err(UnknownCountry)
    else if birth.year > currentYear then Err(FutureBirthYear)
    else
      BuiltIdIsClean(year, countryCode, birth, chunk);
      Ok(Upper(Join(RawSegments(year, countryCode, birth, chunk), Dash)))
  }

  /** Each failure of generation carries the message of the `ValueError`
      the program raises for it. */
  lemma GenerateErrorMessages(year: int, countryCode: string, birth: Date, chunk: string,
                              table: set<string>, currentYear: int)
    requires ValidDate(birth) && IsUuidChunk(chunk)
    ensures var r := Generate(year, countryCode, birth, chunk, table, currentYear);
      && (year > currentYear ==> r.Err? && r.error.Message() == "Year cannot be in the future")
      && (year <= currentYear && countryCode !in table ==>
            r.Err? && r.error.Message() == "Not a valid country code")
      && (year <= currentYear && countryCode in table && birth.year > currentYear ==>
            r.Err? && r.error.Message() == "Birth year cannot be in the future")
  {
  }

  /** The ID built from any inputs starts with a digit or a minus sign and
      ends with a hex digit, so it is its own clean form. */
  lemma BuiltIdIsClean(year: int, countryCode: string, birth: Date, chunk: string)
    requires ValidDate(birth)
    requires IsUuidChunk(chunk)
    ensures var id := Upper(Join(RawSegments(year, countryCode, birth, chunk), Dash));
      Clean(id) == id
  {
    var segs := RawSegments(year, countryCode, birth, chunk);
    var y := YearSegment(year);
    assert segs[0] == y && segs[4] == chunk;
    assert |y| > 0 && !IsSpace(y[0]) by {
      var digits := NatToString(Abs(year));
      assert |IntToString(year)| >= 1;
      assert IsDigit(digits[0]);
    }
    assert !IsSpace(chunk[3]) by {
      assert IsLowerHex(chunk[3]);
    }
    JoinedIdIsClean(segs);
  }

  /** Five segments whose first starts, and whose last ends, with a
      non-blank character join and upper-case into a clean ID. */
  lemma JoinedIdIsClean(segs: seq<string>)
    requires |segs| == 5 && |segs[0]| > 0 && |segs[4]| > 0
    requires !IsSpace(segs[0][0]) && !IsSpace(segs[4][|segs[4]| - 1])
    ensures Clean(Upper(Join(segs, Dash))) == Upper(Join(segs, Dash))
  {
    var joined := Join(segs, Dash);
    assert segs == [segs[0], segs[1], segs[2], segs[3], segs[4]];
    JoinFive(segs[0], segs[1], segs[2], segs[3], segs[4], Dash);
    assert joined[0] == segs[0][0] && joined[|joined| - 1] == segs[4][|segs[4]| - 1];
    ToUpperKeepsSpace(joined[0]);
    ToUpperKeepsSpace(joined[|joined| - 1]);
    CleanIdentity(Upper(joined));
  }

  /** A string that starts and ends with a non-blank character and holds no
      lower-case letter is its own clean form. */
  lemma CleanIdentity(s: string)
    requires Trimmed(s)
    requires forall i :: 0 <= i < |s| ==> !IsLower(s[i])
    ensures Clean(s) == s
  {
    StripTrimmed(s);
  }

  // ---------------------------------------------------------------------
  // is_member_id_valid
  // ---------------------------------------------------------------------

  /** `re.match(r'^\d{2}$', s)`: two digits, where `$` also matches just
      before a single final newline. */
  predicate MatchesTwoDigits(s: string) {
    && (|s| == 2 || (|s| == 3 && s[2] == '\n'))
    && IsDigit(s[0]) && IsDigit(s[1])
  }

  /** `int(s)` for a string `MatchesTwoDigits` accepts. */
  function TwoDigitValue(s: string): (v: int)
    requires MatchesTwoDigits(s)
    ensures 0 <= v <= 99
  {
    10 * DigitValue(s[0]) + DigitValue(s[1])
  }

  /** The zero-padded numeral of every number below 100 matches the
      pattern, with or without a final newline, and `int()` reads the number
      back. */
  lemma TwoDigitsNumeral(v: nat)
    requires v < 100
    ensures MatchesTwoDigits(TwoDigits(v)) && TwoDigitValue(TwoDigits(v)) == v
    ensures MatchesTwoDigits(TwoDigits(v) + ['\n']) && TwoDigitValue(TwoDigits(v) + ['\n']) == v
  {
  }

  /** Conversely, every string the pattern accepts is the zero-padded
      numeral of the number `int()` reads from it, with or without a final
      newline; with `TwoDigitsNumeral` the pattern accepts exactly those. */
  lemma TwoDigitsMatch(s: string)
    requires MatchesTwoDigits(s)
    ensures s == TwoDigits(TwoDigitValue(s)) || s == TwoDigits(TwoDigitValue(s)) + ['\n']
  {
    DivModTen(TwoDigitValue(s), DigitValue(s[0]), DigitValue(s[1]));
  }

  /** The value read by `TwoDigitValue` is the decimal value of the two
      digits, as `int()` computes it for any numeral. */
  lemma TwoDigitValueIsNumeral(s: string)
    requires MatchesTwoDigits(s)
    ensures TwoDigitValue(s) == NumeralValue(s[..2])
  {
    var p := s[..2];
    assert p[..|p| - 1] == [s[0]];
    assert [s[0]][..0] == [];
    assert NumeralValue([s[0]]) == DigitValue(s[0]);
  }

  /** `re.match(r'^[a-zA-Z0-9]{4}$', s)`. */
  predicate MatchesFourAlnum(s: string) {
    && (|s| == 4 || (|s| == 5 && s[4] == '\n'))
    && forall i :: 0 <= i < 4 ==> IsAlnum(s[i])
  }

  /** Why an ID is rejected; the argument is the raw offending segment. */
  datatype Rejection =
    | BadShape
    | BadYear
    | UnknownCode(got: string)
    | DisallowedCode(got: string)
    | BadBirthYear(got: string)
    | BadMonthDigits(got: string)
    | MonthOutOfRange(got: string)
    | BadChunk(got: string)
  {
    /** Position of the failed check in the validation order. */
    function Step(): nat {
      match this
      case BadShape => 0
      case BadYear => 1
      case UnknownCode(_) => 2
      case DisallowedCode(_) => 3
      case BadBirthYear(_) => 4
      case BadMonthDigits(_) => 5
      case MonthOutOfRange(_) => 6
      case BadChunk(_) => 7
    }

    /** Which segment a rejection that names one is about. */
    function Segment(): nat
      requires !BadShape? && !BadYear?
    {
      match this
      case UnknownCode(_) => 1
      case DisallowedCode(_) => 1
      case BadBirthYear(_) => 2
      case BadMonthDigits(_) => 3
      case MonthOutOfRange(_) => 3
      case BadChunk(_) => 4
    }
  }

  /** The reason string returned alongside `False`. The length and year
      reasons are fixed; every other reason ends with the raw segment. */
  function Reason(rej: Rejection): (msg: string)
    ensures |msg| > 0
    ensures !rej.BadShape? && !rej.BadYear? ==>
      |rej.got| <= |msg| && msg[|msg| - |rej.got|..] == rej.got
  {
    match rej
    case BadShape => "Member ID is an incorrect length or number of segments."
    case BadYear => "Incorrect year"
    case UnknownCode(g) => "Incorrect country code. Got " + g
    case DisallowedCode(g) => "Disallowed country code. Got " + g
    case BadBirthYear(g) => "Expecting 2 digit birth year. Got " + g
    case BadMonthDigits(g) => "Expecting 2 digit birth month. Got " + g
    case MonthOutOfRange(g) => "Expecting birth month between 1-12. Got " + g
    case BadChunk(g) => "Expected 4 alphanumeric characters. Got " + g
  }

  /** The reason for refusing a listed `US`, written out. */
  lemma DisallowedUsReason()
    ensures Reason(DisallowedCode(Disallowed)) == "Disallowed country code. Got US"
  {
  }

  /** The number of checks validation performs. */
  const CheckCount: nat := 8

  /** Check `k` of validation taken on its own, without the ones before it.
      Checks 1..7 look at the segments and need the shape of check 0. */
  predicate Passes(k: nat, s: string, table: set<string>) {
    var segs := Split(s, Dash);
    if k == 0 then |segs| == 5 && |s| == 16
    else if |segs| != 5 then false
    else if k == 1 then MatchesTwoDigits(segs[0])
    else if k == 2 then Upper(segs[1]) in table
    else if k == 3 then Upper(segs[1]) != Disallowed
    else if k == 4 then MatchesTwoDigits(segs[2])
    else if k == 5 then MatchesTwoDigits(segs[3])
    else if k == 6 then MatchesTwoDigits(segs[3]) && 1 <= TwoDigitValue(segs[3]) <= 12
    else if k == 7 then MatchesFourAlnum(segs[4])
    else true
  }

  /** Every check passes. */
  predicate WellFormed(s: string, table: set<string>) {
    forall k :: 0 <= k < CheckCount ==> Passes(k, s, table)
  }

  /** The checks of `is_member_id_valid`, run in order; the first failure is
      reported, and `None` means every check passed. */
  function FirstRejection(s: string, table: set<string>): (r: Option<Rejection>)
    ensures r.None? <==> WellFormed(s, table)
    ensures r.Some? ==> r.value.Step() < CheckCount && !Passes(r.value.Step(), s, table)
    ensures r.Some? ==> forall k :: 0 <= k < r.value.Step() ==> Passes(k, s, table)
    ensures r.Some? && !r.value.BadShape? && !r.value.BadYear? ==>
      |Split(s, Dash)| == 5 && r.value.got == Split(s, Dash)[r.value.Segment()]
  {
    var segs := Split(s, Dash);
    var r :=
      if |segs| != 5 || |s| != 16 then Some(BadShape)
      else if !MatchesTwoDigits(segs[0]) then Some(BadYear)
      else if Upper(segs[1]) !in table then Some(UnknownCode(segs[1]))
      else if Upper(segs[1]) == Disallowed then Some(DisallowedCode(segs[1]))
      else if !MatchesTwoDigits(segs[2]) then Some(BadBirthYear(segs[2]))
      else if !MatchesTwoDigits(segs[3]) then Some(BadMonthDigits(segs[3]))
      else if TwoDigitValue(segs[3]) < 1 || TwoDigitValue(segs[3]) > 12 then Some(MonthOutOfRange(segs[3]))
      else if !MatchesFourAlnum(segs[4]) then Some(BadChunk(segs[4]))
      else None;
    assert r.Some? ==> !Passes(r.value.Step(), s, table);
    r
  }

  /** `is_member_id_valid`: `(True, None)` for a well-formed ID, otherwise
      `(False, reason)`. The reason is fixed for the length and year checks;
      for every later check it ends with the raw segment that failed. */
  function IsMemberIdValid(s: string, table: set<string>): (r: (bool, Option<string>))
    ensures r.0 <==> WellFormed(s, table)
    ensures r.0 <==> r.1.None?
    ensures r.1.Some? ==> |r.1.value| > 0
    ensures !Passes(0, s, table) ==>
      r == (false, Some("Member ID is an incorrect length or number of segments."))
    ensures Passes(0, s, table) && !Passes(1, s, table) ==> r == (false, Some("Incorrect year"))
    ensures var f := FirstRejection(s, table);
      f.Some? && !f.value.BadShape? && !f.value.BadYear? ==>
        var g := Split(s, Dash)[f.value.Segment()];
        r.1.Some? && |g| <= |r.1.value| && r.1.value[|r.1.value| - |g|..] == g
  {
    match FirstRejection(s, table)
    case None => (true, None)
    case Some(rej) => (false, Some(Reason(rej)))
  }

  /** A rejected ID is reported with the reason of its first failing check. */
  lemma RejectedWithReason(s: string, table: set<string>, rej: Rejection)
    requires FirstRejection(s, table) == Some(rej)
    ensures IsMemberIdValid(s, table) == (false, Some(Reason(rej)))
  {
  }
}

=== FILE: member_id_props.dfy ===
/** Properties of the member-ID codec that relate several calls: cleaning is
    idempotent, generated IDs have the documented shape, what generation
    produces validation accepts (except for the `US` code), and the
    concrete cases the repository's own tests check. */
module MemberIdProps {
  import opened Results
  import opened Text
  import opened MemberId

  // ---------------------------------------------------------------------
  // Cleaning
  // ---------------------------------------------------------------------

  /** Cleaning twice is cleaning once, so validating a cleaned ID does not
      depend on how often it was cleaned. */
  lemma {:induction false} CleanIdempotent(s: string, table: set<string>)
    ensures Clean(Clean(s)) == Clean(s)
    ensures IsMemberIdValid(Clean(Clean(s)), table) == IsMemberIdValid(Clean(s), table)
  {
    CleanIdentity(Clean(s));
  }

  /** Cleaning drops exactly the surrounding whitespace and upper-cases the
      middle, whatever whitespace surrounds it. */
  lemma {:induction false} CleanOfPadded(p: string, m: string, q: string)
    requires AllSpace(p) && AllSpace(q) && Trimmed(m)
    ensures Clean(p + m + q) == Upper(m)
  {
    StripUnique(p, m, q);
  }

  /** Blanks around the test ID are stripped and nothing else is.
      The string is a parameter pinned by the precondition rather than a
      literal in the contract, so the verifier treats it as one value
      instead of unfolding the literal character by character. */
  lemma StripExample(id: string)
    requires id == "23-MX-61-01-2F0D"
    ensures Strip(" " + id + " ") == id
  {
    assert AllSpace(" ");
    StripUnique(" ", id, " ");
  }

  lemma StripTrimmedExample()
    ensures Strip("23-mX-61-01-2f0d") == "23-mX-61-01-2f0d"
  {
    StripTrimmed("23-mX-61-01-2f0d");
  }

  lemma UpperExamples()
    ensures Upper("23-MX-61-01-2F0D") == "23-MX-61-01-2F0D"
    ensures Upper("23-mX-61-01-2f0d") == "23-MX-61-01-2F0D"
  {
    var m := "23-MX-61-01-2F0D";
    assert forall i :: 0 <= i < |m| ==> !IsLower(m[i]);
    var u := Upper("23-mX-61-01-2f0d");
    assert forall i :: 0 <= i < |m| ==> u[i] == m[i];
  }

  /** The two inputs of the repository's cleaning test: surrounding blanks
      are removed and lower-case letters upper-cased.
      The string is a parameter pinned by the precondition rather than a
      literal in the contract, so the verifier treats it as one value
      instead of unfolding the literal character by character. */
  lemma {:induction false} CleanExamples(id: string, mixed: string)
    requires id == "23-MX-61-01-2F0D" && mixed == "23-mX-61-01-2f0d"
    ensures Clean(" " + id + " ") == id
    ensures Clean(mixed) == id
  {
    StripExample(id);
    StripTrimmedExample();
    UpperExamples();
  }

  // ---------------------------------------------------------------------
  // Shape of generated IDs
  // ---------------------------------------------------------------------

  /** The five segments of a generated ID, as numbers and letters say them. */
  function ExpectedSegments(year: int, countryCode: string, birth: Date, chunk: string): seq<string>
    requires ValidDate(birth)
  {
    [TwoDigits(Abs(year) % 100), Upper(countryCode), TwoDigits(birth.year % 100),
     TwoDigits(birth.month), Upper(chunk)]
  }

  /** The length of a generated ID: one or two characters of year, the
      country code as given, and twelve more. */
  lemma {:induction false} GenerateLength(year: int, countryCode: string, birth: Date, chunk: string,
                                          table: set<string>, currentYear: int)
    requires ValidDate(birth) && IsUuidChunk(chunk)
    requires Generate(year, countryCode, birth, chunk, table, currentYear).Ok?
    ensures var id := Generate(year, countryCode, birth, chunk, table, currentYear).value;
      |id| == (if 0 <= year <= 9 then 1 else 2) + |countryCode| + 12
  {
    var segs := RawSegments(year, countryCode, birth, chunk);
    JoinFive(segs[0], segs[1], segs[2], segs[3], segs[4], Dash);
    assert segs == [segs[0], segs[1], segs[2], segs[3], segs[4]];
    PaddedLastTwo(birth.year);
    assert |IntToString(year)| >= 2 <==> !(0 <= year <= 9);
  }

  /** Digits are left alone by upper-casing. */
  lemma UpperOfDigits(s: string)
    requires forall i :: 0 <= i < |s| ==> IsDigit(s[i])
    ensures Upper(s) == s
  {
  }

  /** Upper-casing the raw segments gives the expected ones once the year
      has at least two digits. */
  lemma {:induction false} RawSegmentsUpper(year: int, countryCode: string, birth: Date, chunk: string)
    requires ValidDate(birth)
    requires year >= 10 || year <= -10
    ensures UpperEach(RawSegments(year, countryCode, birth, chunk))
      == ExpectedSegments(year, countryCode, birth, chunk)
  {
    var raw := RawSegments(year, countryCode, birth, chunk);
    var up := UpperEach(raw);
    var expected := ExpectedSegments(year, countryCode, birth, chunk);
    assert up[0] == expected[0] by {
      YearSegmentUpper(year);
    }
    assert up[2] == expected[2] by {
      BirthYearSegmentUpper(birth.year);
    }
    assert up[3] == expected[3] by {
      MonthSegmentUpper(birth.month);
    }
    assert up[1] == expected[1] && up[4] == expected[4];
  }

  lemma YearSegmentUpper(year: int)
    requires year >= 10 || year <= -10
    ensures Upper(YearSegment(year)) == TwoDigits(Abs(year) % 100)
  {
    LastTwoOfInt(year);
    UpperOfDigits(YearSegment(year));
  }

  lemma BirthYearSegmentUpper(birthYear: nat)
    ensures Upper(BirthYearSegment(birthYear)) == TwoDigits(birthYear % 100)
  {
    PaddedLastTwo(birthYear);
    UpperOfDigits(BirthYearSegment(birthYear));
  }

  lemma MonthSegmentUpper(month: nat)
    requires month < 100
    ensures Upper(MonthSegment(month)) == TwoDigits(month)
  {
    PaddedNumeral(month);
    UpperOfDigits(MonthSegment(month));
  }

  lemma ExpectedSeparatorFree(year: int, countryCode: string, birth: Date, chunk: string)
    requires ValidDate(birth) && IsUuidChunk(chunk)
    requires Dash !in countryCode
    ensures SeparatorFree(ExpectedSegments(year, countryCode, birth, chunk), Dash)
  {
    UpperKeepsAbsent(countryCode, Dash);
    UpperKeepsAbsent(chunk, Dash);
  }

  /** A generated ID splits on `-` into the two-digit year, the upper-cased
      country code, the two-digit birth year and month, and the upper-cased
      random chunk; with a two-letter code it is 16 characters long. */
  lemma {:induction false} GenerateSegments(year: int, countryCode: string, birth: Date, chunk: string,
                                            table: set<string>, currentYear: int)
    requires ValidDate(birth) && IsUuidChunk(chunk)
    requires Generate(year, countryCode, birth, chunk, table, currentYear).Ok?
    requires year >= 10 || year <= -10
    requires Dash !in countryCode
    ensures var id := Generate(year, countryCode, birth, chunk, table, currentYear).value;
      Split(id, Dash) == ExpectedSegments(year, countryCode, birth, chunk)
    ensures |countryCode| == 2 ==>
      |Generate(year, countryCode, birth, chunk, table, currentYear).value| == 16
  {
    var raw := RawSegments(year, countryCode, birth, chunk);
    assert Generate(year, countryCode, birth, chunk, table, currentYear).value == Upper(Join(raw, Dash));
    UpperJoin(raw, Dash);
    RawSegmentsUpper(year, countryCode, birth, chunk);
    ExpectedSeparatorFree(year, countryCode, birth, chunk);
    SplitJoin(ExpectedSegments(year, countryCode, birth, chunk), Dash);
    GenerateLength(year, countryCode, birth, chunk, table, currentYear);
  }

  // ---------------------------------------------------------------------
  // Generate, then validate
  // ---------------------------------------------------------------------

  /** The five segments of `ExpectedSegments` pass every segment check. */
  lemma {:induction false} ExpectedSegmentsValid(year: int, countryCode: string, birth: Date,
                                                 chunk: string, table: set<string>)
    requires ValidDate(birth) && IsUuidChunk(chunk)
    requires |countryCode| == 2
    requires Upper(countryCode) in table && Upper(countryCode) != Disallowed
    ensures var segs := ExpectedSegments(year, countryCode, birth, chunk);
      && MatchesTwoDigits(segs[0])
      && Upper(segs[1]) in table && Upper(segs[1]) != Disallowed
      && MatchesTwoDigits(segs[2]) && MatchesTwoDigits(segs[3])
      && 1 <= TwoDigitValue(segs[3]) <= 12
      && MatchesFourAlnum(segs[4])
  {
    UpperIdempotent(countryCode);
    var c := Upper(chunk);
    assert forall i :: 0 <= i < 4 ==> IsAlnum(c[i]);
  }

  /** Round trip: an ID produced with a two-digit year and a two-character
      code whose upper-cased form the table lists, other than `US`, is
      accepted by validation. */
  lemma {:induction false} GenerateThenValidate(year: int, countryCode: string, birth: Date, chunk: string,
                                                table: set<string>, currentYear: int)
    requires ValidDate(birth) && IsUuidChunk(chunk)
    requires Generate(year, countryCode, birth, chunk, table, currentYear).Ok?
    requires year >= 10 || year <= -10
    requires |countryCode| == 2 && Dash !in countryCode
    requires Upper(countryCode) in table && Upper(countryCode) != Disallowed
    ensures IsMemberIdValid(Generate(year, countryCode, birth, chunk, table, currentYear).value, table)
      == (true, None)
  {
    var id := Generate(year, countryCode, birth, chunk, table, currentYear).value;
    GenerateSegments(year, countryCode, birth, chunk, table, currentYear);
    ExpectedSegmentsValid(year, countryCode, birth, chunk, table);
    assert FirstRejection(id, table).None?;
  }

  /** The asymmetry between the two halves of the codec: generation accepts
      `US` whenever the table lists it, and for a year of at least two
      digits validation then refuses the ID it produced, naming `US` in the
      reason. */
  lemma {:induction false} GeneratedUsRejected(year: int, birth: Date, chunk: string,
                                               table: set<string>, currentYear: int)
    requires ValidDate(birth) && IsUuidChunk(chunk)
    requires "US" in table
    requires year >= 10 || year <= -10
    requires year <= currentYear && birth.year <= currentYear
    ensures Generate(year, "US", birth, chunk, table, currentYear).Ok?
    ensures IsMemberIdValid(Generate(year, "US", birth, chunk, table, currentYear).value, table)
      == (false, Some("Disallowed country code. Got US"))
  {
    var id := Generate(year, "US", birth, chunk, table, currentYear).value;
    var segs := Split(id, Dash);
    assert |segs| == 5 && |id| == 16 && segs[0] == TwoDigits(Abs(year) % 100) && segs[1] == "US" by {
      GenerateSegments(year, "US", birth, chunk, table, currentYear);
      assert Upper("US") == "US";
    }
    assert FirstRejection(id, table) == Some(DisallowedCode(Disallowed)) by {
      TwoDigitsNumeral(Abs(year) % 100);
      assert Upper("US") == "US";
    }
    RejectedWithReason(id, table, DisallowedCode(Disallowed));
    DisallowedUsReason();
  }

  /** A table as the country list really is: two upper-case letters a code. */
  predicate CanonicalTable(table: set<string>) {
    forall c :: c in table ==> |c| == 2 && IsUpperLetter(c[0]) && IsUpperLetter(c[1])
  }

  /** A code of a canonical table is two upper-case letters: upper-casing
      keeps it and it holds no separator. */
  lemma CanonicalCode(code: string, table: set<string>)
    requires CanonicalTable(table) && code in table
    ensures |code| == 2 && Upper(code) == code && Dash !in code
  {
    assert IsUpperLetter(code[0]) && IsUpperLetter(code[1]);
    assert Upper(code) == [code[0], code[1]];
  }

  /** A year from -9 to -1 prints as a minus sign and one digit, which
      `[-2:]` keeps whole. */
  lemma NegativeDigitYearSegment(year: int)
    requires -9 <= year <= -1
    ensures Upper(YearSegment(year)) == [Dash] + [DigitChar(-year)]
  {
    assert NatToString(-year) == [DigitChar(-year)];
    assert IntToString(year) == "-" + [DigitChar(-year)];
  }

  /** The upper-cased segments after the year hold no separator. */
  lemma {:induction false} UpperTailSeparatorFree(year: int, countryCode: string, birth: Date, chunk: string)
    requires ValidDate(birth) && IsUuidChunk(chunk)
    requires Dash !in countryCode
    ensures SeparatorFree(UpperEach(RawSegments(year, countryCode, birth, chunk))[1..], Dash)
  {
    var up := UpperEach(RawSegments(year, countryCode, birth, chunk));
    var expected := ExpectedSegments(year, countryCode, birth, chunk);
    assert up[2] == expected[2] by {
      BirthYearSegmentUpper(birth.year);
    }
    assert up[3] == expected[3] by {
      MonthSegmentUpper(birth.month);
    }
    assert up[1] == expected[1] && up[4] == expected[4];
    ExpectedSeparatorFree(year, countryCode, birth, chunk);
    assert up[1..] == expected[1..];
  }

  /** Moving a leading separator to the front of a concatenation. */
  lemma Regroup(a: string, b: string, d: char)
    ensures ([d] + a) + [d] + b == [] + [d] + (a + [d] + b)
  {
  }

  /** A year from -9 to -1 gives the year segment `-d`, whose minus sign
      the split reads as one more separator: the ID has six pieces. */
  lemma {:induction false} NegativeDigitYearSplit(year: int, countryCode: string, birth: Date, chunk: string)
    requires ValidDate(birth) && IsUuidChunk(chunk)
    requires -9 <= year <= -1
    requires Dash !in countryCode
    ensures |Split(Upper(Join(RawSegments(year, countryCode, birth, chunk), Dash)), Dash)| == 6
  {
    var raw := RawSegments(year, countryCode, birth, chunk);
    var up := UpperEach(raw);
    var digit := [DigitChar(-year)];
    UpperJoin(raw, Dash);
    NegativeDigitYearSegment(year);
    UpperTailSeparatorFree(year, countryCode, birth, chunk);
    var tail := Join(up[1..], Dash);
    assert Join(up, Dash) == ([Dash] + digit) + [Dash] + tail;
    Regroup(digit, tail, Dash);
    SplitAfterPiece([], digit + [Dash] + tail, Dash);
    SplitAfterPiece(digit, tail, Dash);
    SplitJoin(up[1..], Dash);
  }

  /** With a canonical table, an ID generated with a one-digit year (or a
      minus sign and one digit) is refused by the length check: from 0 to 9
      it is 15 characters long, from -9 to -1 it has six pieces. */
  lemma {:induction false} ShortYearRejected(year: int, countryCode: string, birth: Date, chunk: string,
                                             table: set<string>, currentYear: int)
    requires ValidDate(birth) && IsUuidChunk(chunk)
    requires CanonicalTable(table)
    requires -9 <= year <= 9
    requires Generate(year, countryCode, birth, chunk, table, currentYear).Ok?
    ensures IsMemberIdValid(Generate(year, countryCode, birth, chunk, table, currentYear).value, table)
      == (false, Some("Member ID is an incorrect length or number of segments."))
  {
    var id := Generate(year, countryCode, birth, chunk, table, currentYear).value;
    assert countryCode in table;
    CanonicalCode(countryCode, table);
    if year >= 0 {
      GenerateLength(year, countryCode, birth, chunk, table, currentYear);
    } else {
      NegativeDigitYearSplit(year, countryCode, birth, chunk);
    }
    assert !Passes(0, id, table);
  }

  /** With a canonical table, a generated ID round-trips through validation
      exactly when its code is not `US` and its year has at least two
      digits. */
  lemma {:induction false} RoundTripIffNotUs(year: int, countryCode: string, birth: Date, chunk: string,
                                             table: set<string>, currentYear: int)
    requires ValidDate(birth) && IsUuidChunk(chunk)
    requires CanonicalTable(table)
    requires Generate(year, countryCode, birth, chunk, table, currentYear).Ok?
    ensures IsMemberIdValid(Generate(year, countryCode, birth, chunk, table, currentYear).value, table).0
      <==> countryCode != Disallowed && (year >= 10 || year <= -10)
  {
    assert countryCode in table;
    CanonicalCode(countryCode, table);
    if -9 <= year <= 9 {
      ShortYearRejected(year, countryCode, birth, chunk, table, currentYear);
    } else if countryCode == Disallowed {
      GeneratedUsRejected(year, birth, chunk, table, currentYear);
    } else {
      GenerateThenValidate(year, countryCode, birth, chunk, table, currentYear);
    }
  }

  // ---------------------------------------------------------------------
  // The grammar validation accepts
  // ---------------------------------------------------------------------

  /** The fixed layout `DD-CC-DD-DD-AAAA` with the table, `US` and month
      conditions: what a valid ID looks like character by character. */
  predicate Layout(s: string, table: set<string>) {
    && |s| == 16
    && s[2] == Dash && s[5] == Dash && s[8] == Dash && s[11] == Dash
    && IsDigit(s[0]) && IsDigit(s[1])
    && Dash !in s[3..5] && Upper(s[3..5]) in table && Upper(s[3..5]) != Disallowed
    && IsDigit(s[6]) && IsDigit(s[7])
    && IsDigit(s[9]) && IsDigit(s[10])
    && 1 <= 10 * DigitValue(s[9]) + DigitValue(s[10]) <= 12
    && IsAlnum(s[12]) && IsAlnum(s[13]) && IsAlnum(s[14]) && IsAlnum(s[15])
  }

  /** The pieces of a string laid out as `Layout` describes. */
  lemma {:induction false} LayoutSplits(s: string)
    requires |s| == 16
    requires s[2] == Dash && s[5] == Dash && s[8] == Dash && s[11] == Dash
    requires Dash !in s[0..2] && Dash !in s[3..5] && Dash !in s[6..8] && Dash !in s[9..11]
    requires Dash !in s[12..16]
    ensures Split(s, Dash) == [s[0..2], s[3..5], s[6..8], s[9..11], s[12..16]]
  {
    var ps := [s[0..2], s[3..5], s[6..8], s[9..11], s[12..16]];
    JoinFive(ps[0], ps[1], ps[2], ps[3], ps[4], Dash);
    assert Join(ps, Dash) == s;
    SplitJoin(ps, Dash);
  }

  /** Five pieces of lengths 2, 2, 2, 2 and 4 joined by `-` put the
      separators at positions 2, 5, 8 and 11. */
  lemma FivePieces(a: string, b: string, c: string, e: string, f: string)
    requires |a| == 2 && |b| == 2 && |c| == 2 && |e| == 2 && |f| == 4
    ensures var s := a + [Dash] + b + [Dash] + c + [Dash] + e + [Dash] + f;
      && |s| == 16
      && s[2] == Dash && s[5] == Dash && s[8] == Dash && s[11] == Dash
      && s[0..2] == a && s[3..5] == b && s[6..8] == c && s[9..11] == e && s[12..16] == f
  {
  }

  /** With a canonical table, every segment of an accepted ID has exactly
      its nominal length, so no segment carries the trailing newline that
      the patterns' `$` would tolerate. */
  lemma {:induction false} AcceptedSegmentLengths(s: string, table: set<string>)
    requires CanonicalTable(table)
    requires WellFormed(s, table)
    ensures var segs := Split(s, Dash);
      |segs| == 5 && |segs[0]| == 2 && |segs[1]| == 2 && |segs[2]| == 2 && |segs[3]| == 2 && |segs[4]| == 4
  {
    assert Passes(0, s, table) && Passes(1, s, table) && Passes(2, s, table);
    assert Passes(4, s, table) && Passes(5, s, table) && Passes(7, s, table);
    var segs := Split(s, Dash);
    JoinSplit(s, Dash);
    assert segs == [segs[0], segs[1], segs[2], segs[3], segs[4]];
    JoinFive(segs[0], segs[1], segs[2], segs[3], segs[4], Dash);
    assert |Upper(segs[1])| == 2;
  }

  lemma {:induction false} AcceptedHasLayout(s: string, table: set<string>)
    requires CanonicalTable(table)
    requires WellFormed(s, table)
    ensures Layout(s, table)
  {
    AcceptedSegmentLengths(s, table);
    assert Passes(1, s, table) && Passes(2, s, table) && Passes(3, s, table);
    assert Passes(4, s, table) && Passes(5, s, table) && Passes(6, s, table) && Passes(7, s, table);
    var segs := Split(s, Dash);
    JoinSplit(s, Dash);
    assert segs == [segs[0], segs[1], segs[2], segs[3], segs[4]];
    JoinFive(segs[0], segs[1], segs[2], segs[3], segs[4], Dash);
    FivePieces(segs[0], segs[1], segs[2], segs[3], segs[4]);
  }

  lemma {:induction false} LayoutAccepted(s: string, table: set<string>)
    requires Layout(s, table)
    ensures WellFormed(s, table)
  {
    assert s[0..2] == [s[0], s[1]] && s[6..8] == [s[6], s[7]] && s[9..11] == [s[9], s[10]];
    assert s[12..16] == [s[12], s[13], s[14], s[15]];
    LayoutSplits(s);
    var segs := Split(s, Dash);
    assert TwoDigitValue(segs[3]) == 10 * DigitValue(s[9]) + DigitValue(s[10]);
    assert forall k :: 0 <= k < CheckCount ==> Passes(k, s, table);
  }

  /** With a canonical table, validation accepts exactly the strings of the
      fixed layout. */
  lemma {:induction false} WellFormedIffLayout(s: string, table: set<string>)
    requires CanonicalTable(table)
    ensures WellFormed(s, table) <==> Layout(s, table)
  {
    if WellFormed(s, table) {
      AcceptedHasLayout(s, table);
    }
    if Layout(s, table) {
      LayoutAccepted(s, table);
    }
  }

  // ---------------------------------------------------------------------
  // The repository's validation tests
  // ---------------------------------------------------------------------

  /** The segments of a string written as five pieces joined by `-`. */
  lemma SplitFive(s: string, a: string, b: string, c: string, e: string, f: string)
    requires s == a + [Dash] + b + [Dash] + c + [Dash] + e + [Dash] + f
    requires SeparatorFree([a, b, c, e, f], Dash)
    ensures Split(s, Dash) == [a, b, c, e, f]
  {
    JoinFive(a, b, c, e, f, Dash);
    SplitJoin([a, b, c, e, f], Dash);
  }

  /** The test IDs with the enrolment year, birth year and month fixed:
      `23-<code>-<birth year>-<month>-<chunk>`. */
  function TestId(code: string, birthYear: string, month: string, chunk: string): string {
    "23" + [Dash] + code + [Dash] + birthYear + [Dash] + month + [Dash] + chunk
  }

  lemma TestIdSplits(code: string, birthYear: string, month: string, chunk: string)
    requires Dash !in code && Dash !in birthYear && Dash !in month && Dash !in chunk
    ensures Split(TestId(code, birthYear, month, chunk), Dash) == ["23", code, birthYear, month, chunk]
  {
    SplitFive(TestId(code, birthYear, month, chunk), "23", code, birthYear, month, chunk);
  }

  /** The accepted case of the repository's test, `23-MX-61-01-2F0D`, for
      every alphanumeric chunk. */
  lemma {:induction false} ValidateExampleAccepted(chunk: string, table: set<string>)
    requires "MX" in table
    requires |chunk| == 4 && forall i :: 0 <= i < 4 ==> IsAlnum(chunk[i])
    ensures IsMemberIdValid(TestId("MX", "61", "01", chunk), table) == (true, None)
  {
    TestIdSplits("MX", "61", "01", chunk);
    assert Upper("MX") == "MX";
    assert MatchesTwoDigits("23") && MatchesTwoDigits("61") && MatchesTwoDigits("01");
    assert TwoDigitValue("01") == 1;
    assert FirstRejection(TestId("MX", "61", "01", chunk), table).None?;
  }

  /** Extra characters fail the length check, with the fixed reason.
      The string is a parameter pinned by the precondition rather than a
      literal in the contract, so the verifier treats it as one value
      instead of unfolding the literal character by character. */
  lemma {:induction false} ValidateExampleTooLong(id: string, table: set<string>)
    requires id == "23-MX-61-01-2F0D-12345"
    ensures IsMemberIdValid(id, table)
      == (false, Some("Member ID is an incorrect length or number of segments."))
  {
  }

  /** A code the table lacks (`OP` in the test) is refused with the code in
      the reason; so is `US` when the table lists it. */
  lemma {:induction false} ValidateExampleCountry(code: string, table: set<string>)
    requires |code| == 2 && Dash !in code
    ensures Upper(code) !in table ==>
      IsMemberIdValid(TestId(code, "61", "01", "2F0D"), table)
        == (false, Some("Incorrect country code. Got " + code))
    ensures Upper(code) in table && Upper(code) == Disallowed ==>
      IsMemberIdValid(TestId(code, "61", "01", "2F0D"), table)
        == (false, Some("Disallowed country code. Got " + code))
  {
    var id := TestId(code, "61", "01", "2F0D");
    TestIdSplits(code, "61", "01", "2F0D");
    assert MatchesTwoDigits("23");
    if Upper(code) !in table {
      assert FirstRejection(id, table) == Some(UnknownCode(code));
    } else if Upper(code) == Disallowed {
      assert FirstRejection(id, table) == Some(DisallowedCode(code));
    }
  }

  /** A birth year that is not two digits (`aa` in the test) is refused
      with the segment in the reason. */
  lemma {:induction false} ValidateExampleBirthYear(birthYear: string, table: set<string>)
    requires "MX" in table
    requires |birthYear| == 2 && Dash !in birthYear && !MatchesTwoDigits(birthYear)
    ensures IsMemberIdValid(TestId("MX", birthYear, "01", "2F0D"), table)
      == (false, Some("Expecting 2 digit birth year. Got " + birthYear))
  {
    TestIdSplits("MX", birthYear, "01", "2F0D");
    assert Upper("MX") == "MX";
    assert MatchesTwoDigits("23");
    assert FirstRejection(TestId("MX", birthYear, "01", "2F0D"), table) == Some(BadBirthYear(birthYear));
  }

  /** A month that is not two digits (`bb` in the test) is refused with the
      segment in the reason. */
  lemma {:induction false} ValidateExampleMonth(month: string, table: set<string>)
    requires "MX" in table
    requires |month| == 2 && Dash !in month && !MatchesTwoDigits(month)
    ensures IsMemberIdValid(TestId("MX", "61", month, "2F0D"), table)
      == (false, Some("Expecting 2 digit birth month. Got " + month))
  {
    TestIdSplits("MX", "61", month, "2F0D");
    assert Upper("MX") == "MX";
    assert MatchesTwoDigits("23") && MatchesTwoDigits("61");
    assert FirstRejection(TestId("MX", "61", month, "2F0D"), table) == Some(BadMonthDigits(month));
  }

  /** A chunk with a character outside `[a-zA-Z0-9]` (`!!!!` in the test)
      is refused with the chunk in the reason. */
  lemma {:induction false} ValidateExampleChunk(chunk: string, table: set<string>)
    requires "MX" in table
    requires |chunk| == 4 && Dash !in chunk && exists i :: 0 <= i < 4 && !IsAlnum(chunk[i])
    ensures IsMemberIdValid(TestId("MX", "61", "01", chunk), table)
      == (false, Some("Expected 4 alphanumeric characters. Got " + chunk))
  {
    TestIdSplits("MX", "61", "01", chunk);
    assert Upper("MX") == "MX";
    assert MatchesTwoDigits("23") && MatchesTwoDigits("61") && MatchesTwoDigits("01");
    assert TwoDigitValue("01") == 1;
    assert FirstRejection(TestId("MX", "61", "01", chunk), table) == Some(BadChunk(chunk));
  }
}

=== FILE: results.dfy ===
/** Failure-carrying values shared by the member-ID modules. */
module Results {

  /** A value that may be absent (Python's `None`). */
  datatype Option<+T> = None | Some(value: T)

  /** The outcome of an operation that either produces a value or fails
      with a reason (Python's `raise ValueError(...)`). */
  datatype Result<+T, +E> = Ok(value: T) | Err(error: E)
}

=== FILE: text.dfy ===
/** The string operations of Python's `str` that the member-ID codec relies
    on, restricted to ASCII: `strip`, `upper`, `split`, `join`, `str(int)`,
    slicing with `[-2:]` and `zfill`. */
module Text {

  // ---------------------------------------------------------------------
  // Character classes
  // ---------------------------------------------------------------------

  /** The ASCII characters `str.strip()` removes: space, `\t`, `\n`, `\v`,
      `\f`, `\r` and the four separators `\x1c`..`\x1f`. */
  predicate IsSpace(c: char) {
    c == ' ' || (9 <= c as int <= 13) || (28 <= c as int <= 31)
  }

  predicate IsDigit(c: char) {
    '0' <= c <= '9'
  }

  predicate IsLower(c: char) {
    'a' <= c <= 'z'
  }

  predicate IsUpperLetter(c: char) {
    'A' <= c <= 'Z'
  }

  /** The class `[a-zA-Z0-9]`. */
  predicate IsAlnum(c: char) {
    IsDigit(c) || IsLower(c) || IsUpperLetter(c)
  }

  /** A lower-case hexadecimal digit, as `str(uuid.UUID)` prints them. */
  predicate IsLowerHex(c: char) {
    IsDigit(c) || ('a' <= c <= 'f')
  }

  predicate AllSpace(s: string) {
    forall i :: 0 <= i < |s| ==> IsSpace(s[i])
  }

  // ---------------------------------------------------------------------
  // str.upper()
  // ---------------------------------------------------------------------

  function ToUpper(c: char): (u: char)
    ensures IsLower(c) ==> IsUpperLetter(u) && u as int == c as int - 32
    ensures !IsLower(c) ==> u == c
  {
    if IsLower(c) then (c as int - 32) as char else c
  }

  /** `s.upper()`, for ASCII letters. */
  function Upper(s: string): (r: string)
    ensures |r| == |s|
    ensures forall i :: 0 <= i < |s| ==> r[i] == ToUpper(s[i])
  {
    seq(|s|, i requires 0 <= i < |s| => ToUpper(s[i]))
  }

  /** Upper-casing never creates or removes whitespace, so it commutes with
      the question "is this character stripped?". */
  lemma ToUpperKeepsSpace(c: char)
    ensures IsSpace(ToUpper(c)) <==> IsSpace(c)
  {
  }

  lemma UpperIdempotent(s: string)
    ensures Upper(Upper(s)) == Upper(s)
  {
  }

  lemma UpperAppend(a: string, b: string)
    ensures Upper(a + b) == Upper(a) + Upper(b)
  {
  }

  /** Upper-casing keeps a character out of a string exactly when it is not
      a lower-case letter: the separator `-` survives `upper()` unchanged. */
  lemma UpperKeepsAbsent(s: string, d: char)
    requires !IsLower(d) && !IsUpperLetter(d)
    ensures d !in Upper(s) <==> d !in s
  {
    if d in s {
      var i :| 0 <= i < |s| && s[i] == d;
      assert Upper(s)[i] == d;
    }
    if d in Upper(s) {
      var i :| 0 <= i < |Upper(s)| && Upper(s)[i] == d;
      assert s[i] == d;
    }
  }

  // ---------------------------------------------------------------------
  // str.strip()
  // ---------------------------------------------------------------------

  /** Number of whitespace characters at the front of `s`. */
  function LeadingSpaces(s: string): (k: nat)
    ensures k <= |s|
    ensures k == |s| || !IsSpace(s[k])
    decreases |s|
  {
    if |s| == 0 || !IsSpace(s[0]) then 0 else 1 + LeadingSpaces(s[1..])
  }

  /** Number of whitespace characters at the back of `s`. */
  function TrailingSpaces(s: string): (k: nat)
    ensures k <= |s|
    ensures k == |s| || !IsSpace(s[|s| - k - 1])
    decreases |s|
  {
    if |s| == 0 || !IsSpace(s[|s| - 1]) then 0 else 1 + TrailingSpaces(s[..|s| - 1])
  }

  /** Everything `LeadingSpaces` counts is whitespace. */
  lemma {:induction false} LeadingSpacesAreSpace(s: string)
    ensures AllSpace(s[..LeadingSpaces(s)])
    decreases |s|
  {
    if |s| > 0 && IsSpace(s[0]) {
      LeadingSpacesAreSpace(s[1..]);
      assert s[..LeadingSpaces(s)] == [s[0]] + s[1..][..LeadingSpaces(s[1..])];
    }
  }

  /** Everything `TrailingSpaces` counts is whitespace. */
  lemma {:induction false} TrailingSpacesAreSpace(s: string)
    ensures AllSpace(s[|s| - TrailingSpaces(s)..])
    decreases |s|
  {
    if |s| > 0 && IsSpace(s[|s| - 1]) {
      var init := s[..|s| - 1];
      TrailingSpacesAreSpace(init);
      var k := TrailingSpaces(init);
      var tail := init[|init| - k..];
      var suffix := s[|s| - (k + 1)..];
      forall i | 0 <= i < |suffix|
        ensures IsSpace(suffix[i])
      {
        if i < k {
          assert suffix[i] == tail[i];
        }
      }
    }
  }

  /** `s` neither starts nor ends with whitespace. */
  predicate Trimmed(s: string) {
    |s| == 0 || (!IsSpace(s[0]) && !IsSpace(s[|s| - 1]))
  }

  /** `s.strip()`: the longest middle part of `s` that neither starts nor
      ends with whitespace, with only whitespace around it. */
  function Strip(s: string): (r: string)
    ensures Trimmed(r)
    ensures |r| <= |s|
  {
    var t := s[LeadingSpaces(s)..];
    var r := t[..|t| - TrailingSpaces(t)];
    assert |r| > 0 ==> r[0] == t[0];
    r
  }

  lemma {:induction false} LeadingSpacesOf(p: string, rest: string)
    requires AllSpace(p)
    requires |rest| == 0 || !IsSpace(rest[0])
    ensures LeadingSpaces(p + rest) == |p|
    decreases |p|
  {
    if |p| > 0 {
      assert (p + rest)[1..] == p[1..] + rest;
      LeadingSpacesOf(p[1..], rest);
    } else {
      assert p + rest == rest;
    }
  }

  lemma {:induction false} TrailingSpacesOf(rest: string, q: string)
    requires AllSpace(q)
    requires |rest| == 0 || !IsSpace(rest[|rest| - 1])
    ensures TrailingSpaces(rest + q) == |q|
    decreases |q|
  {
    if |q| > 0 {
      assert (rest + q)[..|rest + q| - 1] == rest + q[..|q| - 1];
      TrailingSpacesOf(rest, q[..|q| - 1]);
    } else {
      assert rest + q == rest;
    }
  }

  /** `strip()` is characterised by its result: whatever whitespace `p` and
      `q` surround a trimmed middle `m`, stripping yields exactly `m`. */
  lemma {:induction false} StripUnique(p: string, m: string, q: string)
    requires AllSpace(p) && AllSpace(q) && Trimmed(m)
    ensures Strip(p + m + q) == m
  {
    var s := p + m + q;
    if |m| == 0 {
      assert s == (p + q) + [];
      assert AllSpace(p + q);
      LeadingSpacesOf(p + q, []);
    } else {
      assert s == p + (m + q);
      LeadingSpacesOf(p, m + q);
      var t := s[|p|..];
      assert t == m + q;
      TrailingSpacesOf(m, q);
    }
  }

  /** A trimmed string is its own `strip()`. */
  lemma StripTrimmed(s: string)
    requires Trimmed(s)
    ensures Strip(s) == s
  {
    StripUnique([], s, []);
    assert [] + s + [] == s;
  }

  // ---------------------------------------------------------------------
  // str.split(sep) and sep.join(parts)
  // ---------------------------------------------------------------------

  /** `s.split(d)` for a one-character separator `d`: the pieces between
      consecutive occurrences of `d`, empty pieces included, so the empty
      string splits into one empty piece. */
  function Split(s: string, d: char): (r: seq<string>)
    ensures |r| >= 1
    ensures forall i :: 0 <= i < |r| ==> d !in r[i]
    decreases |s|
  {
    if |s| == 0 then [""]
    else if s[0] == d then [""] + Split(s[1..], d)
    else ExtendFirst(s[0], Split(s[1..], d))
  }

  /** Puts `c` in front of the first piece. */
  function ExtendFirst(c: char, ps: seq<string>): (r: seq<string>)
    requires |ps| >= 1
    ensures |r| == |ps| && r[0] == [c] + ps[0] && r[1..] == ps[1..]
  {
    [[c] + ps[0]] + ps[1..]
  }

  /** The combined length of the pieces. */
  function TotalLength(ps: seq<string>): nat
    decreases |ps|
  {
    if |ps| == 0 then 0 else |ps[0]| + TotalLength(ps[1..])
  }

  /** `d.join(ps)`. */
  function Join(ps: seq<string>, d: char): string
    decreases |ps|
  {
    if |ps| == 0 then ""
    else if |ps| == 1 then ps[0]
    else ps[0] + [d] + Join(ps[1..], d)
  }

  /** A join holds the pieces in order with one separator between
      neighbours: it starts with the first piece, a separator follows it,
      and its length is the pieces' lengths plus one per gap. */
  lemma {:induction false} JoinShape(ps: seq<string>, d: char)
    requires |ps| >= 1
    ensures |Join(ps, d)| == TotalLength(ps) + |ps| - 1
    ensures ps[0] <= Join(ps, d)
    ensures |ps| >= 2 ==> Join(ps, d)[|ps[0]|] == d
    decreases |ps|
  {
    if |ps| >= 2 {
      JoinShape(ps[1..], d);
    }
  }

  /** No piece of `ps` contains the separator `d`. */
  predicate SeparatorFree(ps: seq<string>, d: char) {
    forall i :: 0 <= i < |ps| ==> d !in ps[i]
  }

  lemma {:induction false} SplitNoSeparator(p: string, d: char)
    requires d !in p
    ensures Split(p, d) == [p]
    decreases |p|
  {
    if |p| > 0 {
      SplitNoSeparator(p[1..], d);
      assert [p[0]] + p[1..] == p;
    }
  }

  lemma {:induction false} SplitAfterPiece(p: string, t: string, d: char)
    requires d !in p
    ensures Split(p + [d] + t, d) == [p] + Split(t, d)
    decreases |p|
  {
    var s := p + [d] + t;
    if |p| == 0 {
      assert s[1..] == t;
    } else {
      assert s[1..] == p[1..] + [d] + t;
      SplitAfterPiece(p[1..], t, d);
      assert [p[0]] + p[1..] == p;
    }
  }

  /** Splitting undoes joining when no piece contains the separator. */
  lemma {:induction false} SplitJoin(ps: seq<string>, d: char)
    requires |ps| >= 1 && SeparatorFree(ps, d)
    ensures Split(Join(ps, d), d) == ps
    decreases |ps|
  {
    if |ps| == 1 {
      SplitNoSeparator(ps[0], d);
    } else {
      SplitJoin(ps[1..], d);
      SplitAfterPiece(ps[0], Join(ps[1..], d), d);
      assert [ps[0]] + ps[1..] == ps;
    }
  }

  /** Joining undoes splitting, for every string. */
  lemma {:induction false} JoinSplit(s: string, d: char)
    ensures Join(Split(s, d), d) == s
    decreases |s|
  {
    if |s| > 0 {
      var rest := Split(s[1..], d);
      JoinSplit(s[1..], d);
      if s[0] == d {
        assert Join([""] + rest, d) == "" + [d] + Join(rest, d);
        assert s == [s[0]] + s[1..];
      } else {
        var ps := [[s[0]] + rest[0]] + rest[1..];
        if |rest| == 1 {
          assert Join(ps, d) == [s[0]] + rest[0];
        } else {
          assert ps[1..] == rest[1..];
          assert Join(rest, d) == rest[0] + [d] + Join(rest[1..], d);
          assert Join(ps, d) == [s[0]] + rest[0] + [d] + Join(rest[1..], d);
        }
        assert s == [s[0]] + s[1..];
      }
    }
  }

  /** Joining five pieces writes them out with the separator between. */
  lemma JoinFive(a: string, b: string, c: string, e: string, f: string, d: char)
    ensures Join([a, b, c, e, f], d) == a + [d] + b + [d] + c + [d] + e + [d] + f
  {
    assert Join([f], d) == f;
    assert [e, f][1..] == [f];
    assert Join([e, f], d) == e + [d] + f;
    assert [c, e, f][1..] == [e, f];
    assert Join([c, e, f], d) == c + [d] + e + [d] + f;
    assert [b, c, e, f][1..] == [c, e, f];
    assert Join([b, c, e, f], d) == b + [d] + c + [d] + e + [d] + f;
    assert [a, b, c, e, f][1..] == [b, c, e, f];
  }

  /** `Upper` applied to every piece. */
  function UpperEach(ps: seq<string>): (r: seq<string>)
    ensures |r| == |ps|
    ensures forall i :: 0 <= i < |ps| ==> r[i] == Upper(ps[i])
  {
    seq(|ps|, i requires 0 <= i < |ps| => Upper(ps[i]))
  }

  /** Upper-casing a joined string upper-cases each piece, as long as the
      separator is not a letter. */
  lemma {:induction false} UpperJoin(ps: seq<string>, d: char)
    requires !IsLower(d)
    ensures Upper(Join(ps, d)) == Join(UpperEach(ps), d)
    decreases |ps|
  {
    if |ps| >= 2 {
      UpperJoin(ps[1..], d);
      assert UpperEach(ps)[1..] == UpperEach(ps[1..]);
      UpperAppend(ps[0] + [d], Join(ps[1..], d));
      UpperAppend(ps[0], [d]);
    }
  }

  // ---------------------------------------------------------------------
  // Decimal numerals: str(int), s[-2:], s.zfill(width)
  // ---------------------------------------------------------------------

  /** The absolute value of `n`. */
  function Abs(n: int): (a: nat)
    ensures a == n || a == -n
  {
    if n < 0 then -n else n
  }

  function DigitChar(v: int): (c: char)
    requires 0 <= v <= 9
    ensures IsDigit(c)
  {
    ('0' as int + v) as char
  }

  function DigitValue(c: char): (v: int)
    requires IsDigit(c)
    ensures 0 <= v <= 9
    ensures DigitChar(v) == c
  {
    c as int - '0' as int
  }

  /** `str(n)` for `n >= 0`: decimal digits without leading zeros. */
  function NatToString(n: nat): (r: string)
    ensures 1 <= |r|
    ensures forall i :: 0 <= i < |r| ==> IsDigit(r[i])
    ensures r[|r| - 1] == DigitChar(n % 10)
    ensures |r| >= 2 <==> n >= 10
    decreases n
  {
    if n < 10 then [DigitChar(n)] else NatToString(n / 10) + [DigitChar(n % 10)]
  }

  /** `str(n)` for any Python `int`: a minus sign before the digits of `|n|`. */
  function IntToString(n: int): string
  {
    if n < 0 then "-" + NatToString(-n) else NatToString(n)
  }

  /** `s[-2:]`: the last two characters, or all of `s` when it is shorter. */
  function Last2(s: string): (r: string)
    ensures |r| == if |s| < 2 then |s| else 2
  {
    if |s| < 2 then s else s[|s| - 2..]
  }

  function Zeros(n: nat): (r: string)
    ensures |r| == n
    ensures forall i :: 0 <= i < n ==> r[i] == '0'
  {
    seq(n, _ => '0')
  }

  /** `s.zfill(width)`: left-pad with `0` to `width`, keeping a leading sign
      in front of the padding. */
  function ZFill(s: string, width: nat): (r: string)
    ensures |r| == if |s| >= width then |s| else width
  {
    if |s| >= width then s
    else if |s| > 0 && (s[0] == '+' || s[0] == '-') then [s[0]] + Zeros(width - |s|) + s[1..]
    else Zeros(width - |s|) + s
  }

  /** `str(n)` has no leading zero. */
  lemma {:induction false} NatToStringNoLeadingZero(n: nat)
    ensures |NatToString(n)| >= 2 ==> NatToString(n)[0] != '0'
    decreases n
  {
    if n >= 10 {
      NatToStringNoLeadingZero(n / 10);
      assert NatToString(n)[0] == NatToString(n / 10)[0];
    }
  }

  /** `str(n)` starts with a minus sign exactly for negative `n`, and every
      other character is a digit. */
  lemma IntToStringShape(n: int)
    ensures |IntToString(n)| >= 1
    ensures IntToString(n)[0] == '-' <==> n < 0
    ensures forall i :: (if n < 0 then 1 else 0) <= i < |IntToString(n)| ==> IsDigit(IntToString(n)[i])
  {
  }

  /** `s[-2:]` is a suffix of `s`. */
  lemma Last2Suffix(s: string)
    ensures s == s[..|s| - |Last2(s)|] + Last2(s)
  {
  }

  /** `zfill` keeps a string at least `width` long, and otherwise puts
      exactly the missing number of `0`s in front of the digits, after a
      leading sign if there is one. */
  lemma ZFillShape(s: string, width: nat)
    ensures |s| >= width ==> ZFill(s, width) == s
    ensures |s| < width && (|s| == 0 || (s[0] != '+' && s[0] != '-')) ==>
      ZFill(s, width)[width - |s|..] == s && forall i :: 0 <= i < width - |s| ==> ZFill(s, width)[i] == '0'
    ensures |s| < width && |s| > 0 && (s[0] == '+' || s[0] == '-') ==>
      && ZFill(s, width)[0] == s[0] && ZFill(s, width)[width - |s| + 1..] == s[1..]
      && forall i :: 1 <= i <= width - |s| ==> ZFill(s, width)[i] == '0'
  {
  }

  /** Python's `int(s)` for a string of decimal digits. */
  function NumeralValue(s: string): nat
    requires forall i :: 0 <= i < |s| ==> IsDigit(s[i])
    decreases |s|
  {
    if |s| == 0 then 0 else 10 * NumeralValue(s[..|s| - 1]) + DigitValue(s[|s| - 1])
  }

  /** `int(str(n)) == n` for every `n >= 0`. */
  lemma {:induction false} NatToStringValue(n: nat)
    ensures NumeralValue(NatToString(n)) == n
    decreases n
  {
    if n >= 10 {
      NatToStringValue(n / 10);
      var r := NatToString(n);
      assert r[..|r| - 1] == NatToString(n / 10);
    }
  }

  /** `int(str(n)) == n` for every integer: the sign, then the digits of `|n|`. */
  lemma {:induction false} IntToStringValue(n: int)
    ensures n >= 0 ==> NumeralValue(IntToString(n)) == n
    ensures n < 0 ==> NumeralValue(IntToString(n)[1..]) == -n
  {
    NatToStringValue(Abs(n));
    if n < 0 {
      assert IntToString(n)[1..] == NatToString(-n);
    }
  }

  /** The two-digit, zero-padded decimal numeral of `n`. */
  function TwoDigits(n: nat): (r: string)
    requires n < 100
    ensures |r| == 2 && IsDigit(r[0]) && IsDigit(r[1])
    ensures 10 * DigitValue(r[0]) + DigitValue(r[1]) == n
  {
    [DigitChar(n / 10), DigitChar(n % 10)]
  }

  /** Division by 10 is determined by any quotient and remainder in range. */
  lemma DivModTen(n: int, q: int, r: int)
    requires n == 10 * q + r && 0 <= r < 10
    ensures n / 10 == q && n % 10 == r
  {
  }

  /** The same for division by 100. */
  lemma DivModHundred(n: int, q: int, r: int)
    requires n == 100 * q + r && 0 <= r < 100
    ensures n / 100 == q && n % 100 == r
  {
  }

  /** The last two decimal digits of `n`, split into tens and units. */
  lemma TensAndUnits(n: nat)
    ensures (n % 100) / 10 == (n / 10) % 10
    ensures (n % 100) % 10 == n % 10
  {
    var q := n / 10;
    var t := q % 10;
    var u := n % 10;
    DivModTen(n, q, u);
    DivModTen(q, q / 10, t);
    DivModHundred(n, q / 10, 10 * t + u);
    DivModTen(10 * t + u, t, u);
  }

  lemma {:induction false} LastTwoOfNat(n: nat)
    requires n >= 10
    ensures Last2(NatToString(n)) == TwoDigits(n % 100)
  {
    var h := NatToString(n / 10);
    assert NatToString(n) == h + [DigitChar(n % 10)];
    assert h[|h| - 1] == DigitChar((n / 10) % 10);
    TensAndUnits(n);
  }

  /** `str(n)[-2:]` is the two-digit numeral of `|n| % 100` as soon as `n`
      has at least two digits, whatever its sign. */
  lemma {:induction false} LastTwoOfInt(n: int)
    requires n >= 10 || n <= -10
    ensures Last2(IntToString(n)) == TwoDigits(Abs(n) % 100)
  {
    var a := Abs(n);
    LastTwoOfNat(a);
    if n < 0 {
      var s := NatToString(a);
      assert IntToString(n) == "-" + s;
      assert ("-" + s)[|"-" + s| - 2..] == s[|s| - 2..];
    }
  }

  /** `str(str(n)[-2:]).zfill(2)` is the two-digit numeral of `n % 100`. */
  lemma {:induction false} PaddedLastTwo(n: nat)
    ensures ZFill(Last2(NatToString(n)), 2) == TwoDigits(n % 100)
  {
    if n >= 10 {
      LastTwoOfNat(n);
    } else {
      assert NatToString(n) == [DigitChar(n)];
      assert Zeros(1) == ['0'];
    }
  }

  /** `str(n).zfill(2)` is the two-digit numeral of `n` below 100. */
  lemma {:induction false} PaddedNumeral(n: nat)
    requires n < 100
    ensures ZFill(NatToString(n), 2) == TwoDigits(n)
  {
    if n >= 10 {
      assert NatToString(n / 10) == [DigitChar(n / 10)];
      assert NatToString(n) == [DigitChar(n / 10), DigitChar(n % 10)];
    } else {
      assert NatToString(n) == [DigitChar(n)];
      assert Zeros(1) == ['0'];
    }
  }
}

=== FILE: validators.dfy ===
/** The request-field validators used by the member-ID endpoints. Each
    either returns a boolean or, when asked to raise, fails instead of
    returning `False`. */
module Validators {
  import opened Results
  import opened Text
  import MemberId

  /** What a validator call ends in. The failing branches execute
      `raise <str>`, which Python 3 turns into a `TypeError` because a
      string is not an exception; the message is therefore not observable
      and is not carried. */
  datatype Outcome = Returned(value: bool) | Raised

  /** `is_valid_nonempty_str`: a present, non-empty string is valid; `None`
      or `""` is `False`, or a failure when `shouldRaise`. */
  function IsValidNonemptyStr(s: Option<string>, shouldRaise: bool): (r: Outcome)
    ensures r == Returned(true) <==> s.Some? && |s.value| > 0
    ensures r.Raised? <==> shouldRaise && !(s.Some? && |s.value| > 0)
    ensures r == Returned(false) <==> !shouldRaise && !(s.Some? && |s.value| > 0)
  {
    if s.None? || |s.value| == 0 then
      if shouldRaise then Raised else Returned(false)
    else Returned(true)
  }

  /** The error message `is_valid_country_code` settles on. The membership
      test runs after the length test and overwrites its message. */
  function CountryCodeError(code: string, table: set<string>): (e: Option<string>)
    ensures e.None? <==> |code| == 2 && code in table
    ensures code !in table ==> e == Some("Country code not found")
    ensures code in table && |code| != 2 ==> e.Some? && |e.value| > 0
  {
    var lengthError := if |code| != 2 then Some("Invalid country code length: (" + IntToString(|code|) + ")") else None;
    if code !in table then Some("Country code not found") else lengthError
  }

  /** `is_valid_country_code`: exactly the two-character codes the table
      lists, compared as given (no upper-casing). */
  function IsValidCountryCode(code: string, table: set<string>, shouldRaise: bool): (r: Outcome)
    ensures r == Returned(true) <==> |code| == 2 && code in table
    ensures r.Raised? <==> shouldRaise && !(|code| == 2 && code in table)
    ensures r == Returned(false) <==> !shouldRaise && !(|code| == 2 && code in table)
  {
    match CountryCodeError(code, table)
    case None => Returned(true)
    case Some(_) => if shouldRaise then Raised else Returned(false)
  }

  /** The two modes of `is_valid_nonempty_str` agree: it raises in the
      raising mode exactly when it returns `False` in the other. */
  lemma NonemptyModesAgree(s: Option<string>)
    ensures IsValidNonemptyStr(s, true).Raised? <==> IsValidNonemptyStr(s, false) == Returned(false)
    ensures IsValidNonemptyStr(s, true) == Returned(true) <==> IsValidNonemptyStr(s, false) == Returned(true)
  {
  }

  /** The same for `is_valid_country_code`. */
  lemma CountryModesAgree(code: string, table: set<string>)
    ensures IsValidCountryCode(code, table, true).Raised?
      <==> IsValidCountryCode(code, table, false) == Returned(false)
    ensures IsValidCountryCode(code, table, true) == Returned(true)
      <==> IsValidCountryCode(code, table, false) == Returned(true)
  {
  }

  /** A code the request validator accepts also passes generation's
      country check, since both test membership of the raw code in the same
      table; with any year from 10 up to the current one and a birth year
      not in the future, generation then succeeds with a 16-character ID. */
  lemma {:induction false} AcceptedCodeGenerates(code: string, table: set<string>, shouldRaise: bool,
                                                 year: int, birth: MemberId.Date, chunk: string,
                                                 currentYear: int)
    requires MemberId.ValidDate(birth) && MemberId.IsUuidChunk(chunk)
    requires IsValidCountryCode(code, table, shouldRaise) == Returned(true)
    requires 10 <= year <= currentYear && birth.year <= currentYear
    ensures MemberId.Generate(year, code, birth, chunk, table, currentYear).Ok?
    ensures |MemberId.Generate(year, code, birth, chunk, table, currentYear).value| == 16
  {
    var segs := MemberId.RawSegments(year, code, birth, chunk);
    JoinFive(segs[0], segs[1], segs[2], segs[3], segs[4], MemberId.Dash);
    assert segs == [segs[0], segs[1], segs[2], segs[3], segs[4]];
    LastTwoOfInt(year);
    PaddedLastTwo(birth.year);
    PaddedNumeral(birth.month);
  }
}
